=== FILE: README.md ===
# CODEOWNERS ownership check, modelled in Dafny

This project models the ownership decision of the editor extension
"github-codeowner-checker": `checkCodeOwners` in `src/extension.ts`. Given
the configured GitHub profile name, the CODEOWNERS files found in the
workspace (each as its workspace-relative path and its text) and the
workspace-relative path of the file being edited, the check reports one of:

- the profile name is not configured;
- no CODEOWNERS file was found;
- the user is listed as a code owner;
- the user is not listed;
- a pattern threw when compiled as a regular expression, which ends the
  check with an uncaught exception.

The decision works in these steps:

- Each CODEOWNERS file governs the paths that start, character by
  character, with its root. The root is the file's relative path with one
  trailing `/CODEOWNERS` removed.
- The text of a file is split into lines on `\r?\n`.
- A line that is all whitespace, or whose first character is `#`, is
  skipped.
- Every other line is split on whitespace runs. With at least two tokens
  it is a rule: token 0 is the pattern and the remaining tokens are the
  owners.
- The pattern `*` matches every path. Any other pattern is compiled with
  `new RegExp` and searched for in the path.
- The first rule that matches and lists the user ends the scan with
  "owner".

The JavaScript runtime enters only through `Js.Runtime`: the whitespace
set shared by `\s` and `trim()`, whether `new RegExp(p)` compiles, and
whether a compiled pattern matches somewhere in a path. These are
parameters of every operation, so every property holds for any regex
engine and any whitespace set that leaves out `#`. Two line-parsing
lemmas assume that: `Rules.LeadingSpaceGivesEmptyPattern` and
`Rules.IndentedCommentIsRule`. A few concrete scenarios also assume
`Js.AsciiSpaces`, the ASCII facts every ECMAScript runtime shares.

Modules, in dependency order:

- `Wrappers`: the Option type.
- `Js`: the runtime parameters.
- `Text`: `startsWith`, the suffix test and the line splitter.
- `Whitespace`: `trim` and `split(/\s+/)`.
- `Rules`: line parsing and pattern testing.
- `Resolver`: roots, scope, the scans and the verdict.
- `Properties`: lemmas relating several runs.
- `Checker`: the source's loops with their `break`s, proved equal to `Resolve`.
- `Scenarios`: concrete workspaces and the root-level finding.

`Resolver.Resolve` takes the root derivation as a parameter. The source
uses `Resolver.FileRoot`, and `Checker.CheckCodeOwners` is proved equal to
`Resolve` with `FileRoot`. Every scan property is stated for any root
derivation, so it also holds for the corrected `Scenarios.IntendedRoot`
(see Findings).

Two behaviours of the source shape the verdicts:

- `new RegExp(pattern)` at line 91 throws on an invalid pattern. Nothing
  in `checkCodeOwners` catches the exception, so the check ends there.
  The model returns `InvalidPattern` for this.
- The first outcome the check reaches decides. A rule that grants
  ownership before the invalid pattern wins. So does a `*` rule, which
  never reaches the regex engine.

## Model

| member | source | states |
|---|---|---|
| `Resolver.Resolve` | src/extension.ts:45-107 | "Not configured" exactly when the name is missing or empty, whatever the files. "No CODEOWNERS" exactly when the name is set and no file was found. "Owner" only if some in-scope file has a rule that matches and lists the user. "Not owner" only if no file does and every in-scope pattern compiles. An abort names the pattern of a rule in an in-scope file, a pattern other than `*` that does not compile. |
| `Checker.CheckCodeOwners` | src/extension.ts:45-107 | The loop version, with the `isOwner` flag, both `break`s and the throwing `new RegExp`, returns exactly the functional verdict. So the breaks only cut the scan short. |
| `Checker.CheckLines` | src/extension.ts:81-101 | The inner loop over one file's lines, stopping at the first rule that matches and lists the user, returns that file's scan verdict. |
| `Properties.ResolveIsExistential` | src/extension.ts:64-107 | With a name set, at least one file, and every in-scope pattern compiling, the verdict is "owner" if some in-scope file has a matching rule listing the user, else "not owner". |
| `Properties.MoreFilesKeepOwnership` | src/extension.ts:64-107 | Appending CODEOWNERS files never turns "owner" into anything else. |
| `Properties.NotOwnerOfPrefix` | src/extension.ts:64-107 | If the check says "not owner" for a list of files, it says "not owner" for every non-empty prefix of that list. |
| `Properties.MoreLinesKeepOwnership` | src/extension.ts:81-101 | Appending lines to a file whose rules already grant ownership keeps ownership. |
| `Properties.ScanRulesAppend` | src/extension.ts:81-101 | Scanning two blocks of rules scans the first block, and reaches the second only if the first found nothing. |
| `Properties.ScanFilesAppend` | src/extension.ts:68-107 | Scanning two lists of files scans the first list, and reaches the second only if the first found nothing. |
| `Properties.GrantingRuleEndsScan` | src/extension.ts:93-97 | A granting rule reached after nothing was found gives "owner". Later rules are never tested, even ones whose pattern would throw. |
| `Properties.StarRuleOwnsEverything` | src/extension.ts:89-97 | A `*` rule that lists the user and heads a file's rules gives "owner" for every target, whatever follows it. A `*` rule placed later can still be preceded by a pattern that throws (see `Properties.GrantingRuleEndsScan` for a rule reached after nothing was found). |
| `Properties.OutOfScopeFileIsInert` | src/extension.ts:78 | Removing a file whose root is not a prefix of the target leaves the verdict unchanged. |
| `Properties.ScanFilesAborts` | src/extension.ts:89-92 | An abort can only come from an in-scope file with a pattern that neither is `*` nor compiles. |
| `Resolver.ScanRules` | src/extension.ts:81-101 | The rule scan ends in one of three outcomes. "Owner" means some rule matches and lists the user. "Not owner" means no rule does and all patterns compile. An abort names one of the file's patterns that neither is `*` nor compiles. |
| `Resolver.ScanFiles` | src/extension.ts:68-107 | Over files, "owner" means some in-scope file grants, and "not owner" means none does and every in-scope pattern compiles. An abort names the pattern of a rule in an in-scope file, a pattern that neither is `*` nor compiles. |
| `Resolver.FileRoot` | src/extension.ts:71-73 | A path ending in `/CODEOWNERS` is its root followed by `/CODEOWNERS`. Any other path is its own root. |
| `Resolver.FileRootOfDirectory` | src/extension.ts:71-73 | Stripping removes exactly one `/CODEOWNERS`: `dir/CODEOWNERS` has root `dir` for every `dir`, including `x/CODEOWNERS`. |
| `Resolver.ScopeIsRawPrefix` | src/extension.ts:78 | The file `dir/CODEOWNERS` is in scope for `dir` followed by any characters. There is no path-segment boundary check. |
| `Scenarios.SiblingDirectoryInScope` | src/extension.ts:78 | Root `foo` governs `foobar/x`. |
| `Text.SplitJoin` | src/extension.ts:70 | Splitting on `\r?\n` gives back the joined lines exactly. The lines hold no `\n`, and none but the last ends in `\r`. |
| `Text.JoinSplit` | src/extension.ts:70 | Joining the split lines with `\n` restores any text that has no `\r`. |
| `Text.LineBreaksWithoutCr` | src/extension.ts:70 | In text without `\r`, every line break is a bare `\n`. So `Text.JoinLines`, which is `Text.Weave` with `\n` breaks, restores the text. |
| `Text.SplitLinesCount` | src/extension.ts:70 | No line holds a `\n`, and there is exactly one more line than `\n` characters. |
| `Text.SplitLines` | src/extension.ts:70 | Splitting always yields at least one line, even for empty text. Its full characterisation is `Text.WeaveSplit` with `Text.SplitIsLineSplit` and `Text.SplitWeave`. |
| `Text.WeaveSplit` | src/extension.ts:70 | Every text is exactly its lines with its line breaks (`Text.LineBreaks`) put back between them. |
| `Text.SplitIsLineSplit` | src/extension.ts:70 | The cut is well formed. No line holds `\n`. Every break is `\n` or `\r\n`. A line before a bare `\n` does not end in `\r`, because that `\r` would belong to the break. |
| `Text.SplitWeave` | src/extension.ts:70 | Any well-formed lines joined by any mix of `\n` and `\r\n` breaks split back to exactly those lines. CRLF files, mixed endings and stray `\r` inside lines are included. With `Text.WeaveSplit`, the split is the only well-formed cut of the text. |
| `Text.SplitOffCrLf` | src/extension.ts:70 | A line without `\n` followed by `\r\n` splits off exactly, even when the line itself ends in `\r`. |
| `Text.SplitLinesFirst` | src/extension.ts:70 | A line without `\n` and not ending in `\r`, followed by `\n`, splits off as the first line. The rest of the text splits independently. |
| `Whitespace.TrimStartShape` | src/extension.ts:82 | The start-trimmed line is a suffix of the line. Everything removed is whitespace, and what remains does not start with whitespace. |
| `Whitespace.TrimEndShape` | src/extension.ts:82 | The end-trimmed line is a prefix of the line. Everything removed is whitespace, and what remains does not end with whitespace. |
| `Whitespace.Tokenize` | src/extension.ts:83 | `split(/\s+/)` always yields at least one token. Its full characterisation is `Whitespace.TokenizeWeave` with `Whitespace.TokenizeIsTokenSplit` and `Whitespace.WeaveTokenize`. |
| `Whitespace.TokenizeWeave` | src/extension.ts:83 | Every line is exactly its tokens with its whitespace runs (`Whitespace.Gaps`) put back between them. |
| `Whitespace.TokenizeIsTokenSplit` | src/extension.ts:83 | The cut is well formed. Tokens hold no whitespace. Every token between two runs is non-empty. Every run is non-empty whitespace. |
| `Whitespace.GapsBlank` | src/extension.ts:83 | Every separator run is non-empty and all whitespace. |
| `Whitespace.WeaveTokenize` | src/extension.ts:83 | Any well-formed tokens joined by any non-empty whitespace runs split back to exactly those tokens. Leading, trailing and multi-character runs are included. With `Whitespace.TokenizeWeave`, the split is the only well-formed cut of the line. |
| `Whitespace.TokenizeAfterIndent` | src/extension.ts:83 | A non-empty whitespace run before text that is empty or starts with a non-space contributes exactly one empty token. |
| `Whitespace.TokenizeWordPrefix` | src/extension.ts:83 | A whitespace-free prefix becomes part of the first token of whatever follows it. |
| `Whitespace.TrimEmptyIffBlank` | src/extension.ts:82 | `line.trim()` is empty exactly when every character of the line is whitespace. |
| `Whitespace.TokenizeShape` | src/extension.ts:83 | `split(/\s+/)` gives whitespace-free tokens. The first token is empty exactly when the line is empty or starts with whitespace. The last token is empty exactly when the line is empty or ends with whitespace. Tokens in between are non-empty. There is a single token exactly when the line has no whitespace, and that token is the line. |
| `Whitespace.TokenizeJoin` | src/extension.ts:83 | Splitting non-empty, whitespace-free words joined by one whitespace character gives back the words. |
| `Rules.ParseLineIsRuleIff` | src/extension.ts:82-87 | A line is a rule exactly when all three hold: it is not all whitespace, its first raw character is not `#`, and it has at least two tokens. The rule's pattern is then token 0 and its owners are tokens 1 onwards, in order. |
| `Rules.RenderedRuleParses` | src/extension.ts:81-87 | A pattern and owners written on one line separated by whitespace parse back to that rule. The words must be non-empty and free of whitespace, and the pattern must not start with `#`. |
| `Rules.LeadingSpaceGivesEmptyPattern` | src/extension.ts:82-87 | A line that starts with whitespace and is not blank is a rule with the empty pattern. Its owners are all the later tokens. |
| `Rules.IndentedCommentIsRule` | src/extension.ts:82-87 | An indented `# ...` line is a rule with the empty pattern whose first owner starts with `#`. |
| `Rules.TrailingSpaceAddsEmptyOwner` | src/extension.ts:83-87 | Trailing whitespace after a rule adds an empty last owner. |
| `Rules.SingleWordIsNoRule` | src/extension.ts:84 | A line with no whitespace is never a rule. |
| `Rules.ParseFileOfLines` | src/extension.ts:70-87 | A file's rules are the rules of its lines, whichever mix of `\n` and `\r\n` ends them. |
| `Rules.ParseFile` | src/extension.ts:70-87 | It has no contract of its own. Its content is stated by `Rules.ParseFileOfLines`, `Rules.RulesOfAppend` and `Rules.ParseLineIsRuleIff`. |
| `Rules.ParseLine` | src/extension.ts:82-87 | It has no contract of its own. Its contract is `Rules.ParseLineIsRuleIff`: a rule exactly when the line is not blank, does not start with `#`, and has at least two tokens. |
| `Whitespace.Trim` | src/extension.ts:82 | It has no contract of its own. Its contract is `Whitespace.TrimEmptyIffBlank`, with `Whitespace.TrimStartShape` and `Whitespace.TrimEndShape` for the parts. |
| `Rules.RuleGrants` | src/extension.ts:89-93 | A predicate: the rule's pattern matches the path and the user is among its owners. `Properties.GrantingRuleEndsScan` states what a granting rule does to the scan. |
| `Resolver.Unset` | src/extension.ts:47 | A predicate: the `!githubProfileName` test, true for a missing or empty name. `Resolver.Resolve` states "not configured" exactly when it holds. |
| `Resolver.InScope` | src/extension.ts:78 | A predicate: the file's root is a raw prefix of the target. `Resolver.ScopeIsRawPrefix` and `Properties.OutOfScopeFileIsInert` state its consequences. |
| `Resolver.ScanFile` | src/extension.ts:78-101 | An out-of-scope file gives "not owner" without being parsed. "Owner" means the file is in scope and one of its rules grants. "Not owner" means no rule grants and, if in scope, every pattern compiles. An abort comes only from an in-scope file, and names the pattern of one of its rules, a pattern that neither is `*` nor compiles. |
| `Rules.RulesOf` | src/extension.ts:81-87 | A file yields at most one rule per line. |
| `Rules.RulesOfAppend` | src/extension.ts:81-87 | The rules of two blocks of lines are the first block's rules followed by the second's, so file order is kept. |
| `Rules.RuleMatches` | src/extension.ts:89-92 | `*` matches without consulting the engine. Any other pattern throws exactly when it does not compile, and otherwise matches exactly when the engine finds it in the path. |
| `Rules.StarNeedsNoEngine` | src/extension.ts:89-91 | The answer for `*` is the same under every runtime and for every path. |
| `Scenarios.RootFileGovernsOnlyItsName` | src/extension.ts:71-78 | With a name set and only a root-level `CODEOWNERS`, every target not starting with `CODEOWNERS` is "not owner", whatever the file says. |
| `Scenarios.IntendedRoot` | src/extension.ts:71-73 | Corrected derivation. The root-level `CODEOWNERS` gets a root that is a prefix of every target. A path ending in `/CODEOWNERS` is its root followed by `/CODEOWNERS`. Any other path is its own root. |
| `Scenarios.IntendedRootFileGovernsAll` | src/extension.ts:71-78 | Under the corrected derivation, the root-level file is in scope for every target. |
| `Scenarios.RootWildcard` | src/extension.ts:71-97 | A root-level `* owner...` that lists the user gives "owner" under the corrected root. As written, it gives "not owner" for every target outside `CODEOWNERS...`. |
| `Scenarios.RootRuleForOthers` | src/extension.ts:89-97 | Under the corrected root only: a root-level rule that does not list the user gives "not owner" when its pattern is `*` or compiles. Otherwise it aborts, because the pattern is tested before the owners. As written, the file is out of scope and the pattern is never tested (`Scenarios.RootFileGovernsOnlyItsName`). |
| `Scenarios.InvalidPatternAborts` | src/extension.ts:89-92 | An in-scope rule whose pattern does not compile ends the check with that pattern. The rule is not skipped. |

## Left out

- Editor API calls are replaced by plain inputs. The model takes the
  profile name, the found files as (relative path, text) pairs, and the
  target's relative path. This covers:
  - `vscode.workspace.findFiles('**/CODEOWNERS')`;
  - `openTextDocument(...).getText()`;
  - both `asRelativePath` calls;
  - the configuration read and its change subscription.
- The messages and status-bar texts are left out. They are rendered by
  the editor, and the verdict says which one is shown.
- The registration code in `activate` and the empty `deactivate` are left
  out. They are wiring with no logic.
- `console.log` tracing and the message listing the found files
  (line 55) are left out. They do not affect the verdict.
- `async`/`await` sequencing is left out. The model reads the profile name
  once. The source reads the module-level `githubProfileName` at line 47 and
  again at line 93, after the awaits at lines 54 and 69. A settings change
  handled at lines 6-12 in between would change the name used for
  matching, and the model does not cover that interleaving.
- The order of the files `findFiles` returns (line 54) is not documented.
  The model takes the order as an input, so every property holds for every
  order. The verdict itself can depend on it. Take one in-scope file whose
  pattern throws and another that grants ownership: the check aborts or
  reports "owner", whichever file comes first (`Properties.ScanFilesAppend`).
- Every file's text is read at line 69 even when the file is out of
  scope. The model reads nothing, so a failing read is not modelled.
- JavaScript regular-expression semantics are left to the host. They are
  `Js.Runtime.compiles` and `Js.Runtime.search`.
- The Unicode whitespace set is left to the host as
  `Js.Runtime.isSpace`. The scenarios assume only `Js.AsciiSpaces`.
- Strings are modelled as sequences of Unicode characters, not UTF-16
  code units. The difference does not matter here: every whitespace
  character and the characters `#`, `*`, `\r`, `\n` and `/` are single
  code units.
- Text.SplitLines: its own contract bounds only the number of lines. The splitting is characterised by `Text.WeaveSplit`, `Text.SplitIsLineSplit` and `Text.SplitWeave`. Keeping quantifiers out of the recursive function keeps the proofs small.
- Whitespace.Tokenize: its own contract bounds only the number of tokens. The tokens are characterised by `Whitespace.TokenizeWeave`, `Whitespace.TokenizeIsTokenSplit` and `Whitespace.WeaveTokenize`, for the same reason.
- Rules.RulesOf: its own contract bounds only the number of rules. Which rules a file holds is stated per line (`Rules.ParseLineIsRuleIff`)
  and as order preservation (`Rules.RulesOfAppend`). A separate lemma
  that every rule comes from some line is not included.

## Findings

| source | as written | input that shows it | evidently intended | confidence | as-written member | corrected member |
|---|---|---|---|---|---|---|
| src/extension.ts:71-78 | `replace(/\/CODEOWNERS$/, '')` leaves a root-level file's path `CODEOWNERS` unchanged, so that file governs only paths starting with the text `CODEOWNERS` | only a root-level `CODEOWNERS` holding `* alice bob`, user `bob`, editing `src/x.ts`: reported as not an owner | a CODEOWNERS file at the workspace root governs the whole workspace (root `""`) | medium; not executed | `Scenarios.RootFileGovernsOnlyItsName` | `Scenarios.IntendedRoot` (with `Scenarios.IntendedRootFileGovernsAll` and `Scenarios.RootWildcard`) |

=== FILE: checker.dfy ===
/**
 `checkCodeOwners` as the source writes it: a flag, two nested loops over
 files and lines, and two `break`s, with the editor calls replaced by inputs.
 The method computes the same verdict as the functional model, so the
 breaks only cut the scan short.
 */
module Checker {
  import opened Wrappers
  import Js
  import opened Text
  import opened Rules
  import opened Resolver
  import opened Properties

  method CheckCodeOwners(js: Js.Runtime, profile: Option<string>, files: seq<CodeOwnersFile>, relativeFileName: string)
    returns (v: Verdict)
    ensures v == Resolve(js, FileRoot, profile, files, relativeFileName)
  {
    if Unset(profile) {
      return NotConfigured;
    }
    if |files| == 0 {
      return NoCodeOwnersFile;
    }
    var name := profile.value;
    var isOwner := false;
    var i := 0;
    while i < |files|
      invariant 0 <= i <= |files|
      invariant !isOwner
      invariant ScanFiles(js, FileRoot, files[..i], relativeFileName, name) == NotOwner
    {
      var file := files[i];
      var codeOwnersDir := FileRoot(file.relPath);
      var here := NotOwner;
      if StartsWith(relativeFileName, codeOwnersDir) {
        here := CheckLines(js, SplitLines(file.content), relativeFileName, name);
        if here.InvalidPattern? {
          FilesPrefixDecides(js, files, i, relativeFileName, name);
          return here;
        }
        isOwner := here == Owner;
      }
      FilesPrefixDecides(js, files, i, relativeFileName, name);
      if isOwner {
        break;
      }
      i := i + 1;
    }
    if isOwner {
      v := Owner;
    } else {
      assert files[..i] == files;
      v := NotOwner;
    }
  }

  /**
   The inner loop over one in-scope file's lines: a rule is tested only if
   the line is one, the scan stops at the first rule that matches and lists
   the user, and a pattern that does not compile ends it with the exception.
   */
  method CheckLines(js: Js.Runtime, lines: seq<string>, relativeFileName: string, name: string)
    returns (v: Verdict)
    ensures v == ScanRules(js, RulesOf(js, lines), relativeFileName, name)
  {
    var isOwner := false;
    var j := 0;
    while j < |lines|
      invariant 0 <= j <= |lines|
      invariant !isOwner
      invariant ScanRules(js, RulesOf(js, lines[..j]), relativeFileName, name) == NotOwner
    {
      var parsed := ParseLine(js, lines[j]);
      RulesStep(js, lines, j, relativeFileName, name);
      if parsed.Some? {
        var rule := parsed.value;
        var hit := RuleMatches(js, rule.pattern, relativeFileName);
        if hit.None? {
          v := InvalidPattern(rule.pattern);
          LinesPrefixDecides(js, lines, j + 1, relativeFileName, name);
          return;
        }
        if hit.value && name in rule.owners {
          isOwner := true;
          LinesPrefixDecides(js, lines, j + 1, relativeFileName, name);
          break;
        }
      }
      j := j + 1;
    }
    if isOwner {
      v := Owner;
    } else {
      assert lines[..j] == lines;
      v := NotOwner;
    }
  }

  /**
   One more line extends the scan so far by that line's rule, if it is one:
   after nothing found, the verdict is the new rule's alone.
   */
  lemma RulesStep(js: Js.Runtime, lines: seq<string>, j: nat, target: string, user: string)
    requires j < |lines|
    requires ScanRules(js, RulesOf(js, lines[..j]), target, user) == NotOwner
    ensures ScanRules(js, RulesOf(js, lines[..j + 1]), target, user) ==
      match ParseLine(js, lines[j])
      case None => NotOwner
      case Some(rule) => ScanRules(js, [rule], target, user)
  {
    assert lines[..j + 1] == lines[..j] + [lines[j]];
    RulesOfAppend(js, lines[..j], [lines[j]]);
    var tail := RulesOf(js, [lines[j]]);
    ScanRulesAppend(js, RulesOf(js, lines[..j]), tail, target, user);
  }

  /** Once the lines up to `j` decide, the remaining lines do not change the verdict. */
  lemma LinesPrefixDecides(js: Js.Runtime, lines: seq<string>, j: nat, target: string, user: string)
    requires j <= |lines|
    requires ScanRules(js, RulesOf(js, lines[..j]), target, user) != NotOwner
    ensures ScanRules(js, RulesOf(js, lines), target, user) == ScanRules(js, RulesOf(js, lines[..j]), target, user)
  {
    assert lines[..j] + lines[j..] == lines;
    RulesOfAppend(js, lines[..j], lines[j..]);
    ScanRulesAppend(js, RulesOf(js, lines[..j]), RulesOf(js, lines[j..]), target, user);
  }

  /**
   Extending the files scanned so far by file `i`: the verdict through `i`
   is file `i`'s own, and once that decides, the later files do not matter.
   */
  lemma FilesPrefixDecides(js: Js.Runtime, files: seq<CodeOwnersFile>, i: nat, target: string, user: string)
    requires i < |files|
    requires ScanFiles(js, FileRoot, files[..i], target, user) == NotOwner
    ensures ScanFiles(js, FileRoot, files[..i + 1], target, user) == ScanFile(js, FileRoot, files[i], target, user)
    ensures ScanFile(js, FileRoot, files[i], target, user) != NotOwner ==>
      ScanFiles(js, FileRoot, files, target, user) == ScanFile(js, FileRoot, files[i], target, user)
  {
    assert files[..i + 1] == files[..i] + [files[i]];
    ScanFilesAppend(js, FileRoot, files[..i], [files[i]], target, user);
    assert files[..i + 1] + files[i + 1..] == files;
    ScanFilesAppend(js, FileRoot, files[..i + 1], files[i + 1..], target, user);
  }
}

=== FILE: js.dfy ===
/**
 The parts of the JavaScript runtime the resolver leans on, kept abstract.
 They are parameters of the model rather than definitions of it: the exact
 Unicode whitespace set and the regular-expression engine are the host's.
 */
module Js {

  /**
   - `isSpace(c)`: `c` is in the ECMAScript WhiteSpace or LineTerminator set.
     The regex class `\s` and `String.prototype.trim` use that same set, so
     one predicate serves both.
   - `compiles(p)`: `new RegExp(p)` returns instead of throwing.
   - `search(p, s)`: `s.match(new RegExp(p))` is non-null, that is, the
     pattern matches somewhere in `s` (no implicit anchoring).
   */
  datatype Runtime = Runtime(
    isSpace: char -> bool,
    compiles: string -> bool,
    search: (string, string) -> bool)

  /**
   What every ECMAScript runtime agrees on for plain ASCII: space, tab,
   line feed, carriage return, vertical tab and form feed are whitespace;
   the printable characters `!` through `~` are not.
   */
  predicate AsciiSpaces(js: Runtime)
  {
    && js.isSpace(' ') && js.isSpace('\t') && js.isSpace('\n')
    && js.isSpace('\r') && js.isSpace('\U{B}') && js.isSpace('\U{C}')
    && forall c: char :: '!' <= c <= '~' ==> !js.isSpace(c)
  }
}

=== FILE: properties.dfy ===
/**
 Properties of the ownership decision that relate several runs: the scan
 only short-circuits, so more lines or more files can turn "not owner"
 into "owner" (or into an abort on a bad pattern) but never take
 ownership away; out-of-scope files are inert; a granting rule ends the scan.
 */
module Properties {
  import opened Wrappers
  import Js
  import opened Rules
  import opened Resolver

  /** Scanning two lists of rules is scanning the first, then the second only if the first found nothing. */
  lemma {:induction false} ScanRulesAppend(js: Js.Runtime, a: seq<Rule>, b: seq<Rule>, target: string, user: string)
    ensures ScanRules(js, a + b, target, user) ==
      if ScanRules(js, a, target, user) == NotOwner then ScanRules(js, b, target, user)
      else ScanRules(js, a, target, user)
    decreases |a|
  {
    if a == [] {
      assert a + b == b;
    } else {
      assert (a + b)[0] == a[0] && (a + b)[1..] == a[1..] + b;
      ScanRulesAppend(js, a[1..], b, target, user);
    }
  }

  /** Scanning two lists of files is scanning the first, then the second only if the first found nothing. */
  lemma {:induction false} ScanFilesAppend(js: Js.Runtime, rootOf: string -> string, a: seq<CodeOwnersFile>, b: seq<CodeOwnersFile>, target: string, user: string)
    ensures ScanFiles(js, rootOf, a + b, target, user) ==
      if ScanFiles(js, rootOf, a, target, user) == NotOwner then ScanFiles(js, rootOf, b, target, user)
      else ScanFiles(js, rootOf, a, target, user)
    decreases |a|
  {
    if a == [] {
      assert a + b == b;
    } else {
      assert (a + b)[0] == a[0] && (a + b)[1..] == a[1..] + b;
      ScanFilesAppend(js, rootOf, a[1..], b, target, user);
    }
  }

  /**
   A rule that matches and lists the user ends the scan with ownership once
   the rules before it found nothing; rules after it, even ones whose
   pattern would not compile, are never tested.
   */
  lemma GrantingRuleEndsScan(js: Js.Runtime, before: seq<Rule>, rule: Rule, after: seq<Rule>, target: string, user: string)
    requires ScanRules(js, before, target, user) == NotOwner
    requires RuleGrants(js, rule, target, user)
    ensures ScanRules(js, before + [rule] + after, target, user) == Owner
  {
    ScanRulesAppend(js, before, [rule] + after, target, user);
    assert before + [rule] + after == before + ([rule] + after);
  }

  /** A `*` rule listing the user grants ownership of every target it is reached for. */
  lemma StarRuleOwnsEverything(js: Js.Runtime, owners: seq<string>, rest: seq<Rule>, target: string, user: string)
    requires user in owners
    ensures ScanRules(js, [Rule("*", owners)] + rest, target, user) == Owner
  {
    GrantingRuleEndsScan(js, [], Rule("*", owners), rest, target, user);
    assert [] + [Rule("*", owners)] + rest == [Rule("*", owners)] + rest;
  }

  /**
   Appending lines to an ownership file never takes ownership away: the
   rules of the longer text start with the rules of the shorter one.
   */
  lemma MoreLinesKeepOwnership(js: Js.Runtime, lines: seq<string>, more: seq<string>, target: string, user: string)
    requires ScanRules(js, RulesOf(js, lines), target, user) == Owner
    ensures ScanRules(js, RulesOf(js, lines + more), target, user) == Owner
  {
    RulesOfAppend(js, lines, more);
    ScanRulesAppend(js, RulesOf(js, lines), RulesOf(js, more), target, user);
  }

  /** A file outside the target's scope can be removed without changing the verdict. */
  lemma OutOfScopeFileIsInert(js: Js.Runtime, rootOf: string -> string, files: seq<CodeOwnersFile>, k: nat, target: string, user: string)
    requires k < |files|
    requires !InScope(rootOf, files[k], target)
    ensures ScanFiles(js, rootOf, files, target, user) ==
      ScanFiles(js, rootOf, files[..k] + files[k + 1..], target, user)
  {
    var tail := files[k + 1..];
    assert files == files[..k] + ([files[k]] + tail);
    ScanFilesAppend(js, rootOf, files[..k], [files[k]] + tail, target, user);
    ScanFilesAppend(js, rootOf, [files[k]], tail, target, user);
    assert ([files[k]] + tail)[1..] == tail;
    ScanFilesAppend(js, rootOf, files[..k], tail, target, user);
  }

  /** More CODEOWNERS files never take ownership away. */
  lemma MoreFilesKeepOwnership(js: Js.Runtime, rootOf: string -> string, profile: Option<string>, files: seq<CodeOwnersFile>, more: seq<CodeOwnersFile>, target: string)
    requires Resolve(js, rootOf, profile, files, target) == Owner
    ensures Resolve(js, rootOf, profile, files + more, target) == Owner
  {
    ScanFilesAppend(js, rootOf, files, more, target, profile.value);
  }

  /**
   "Not owner" with more files means "not owner" with fewer: the verdict on
   a prefix of the files can only be less than on the whole.
   */
  lemma NotOwnerOfPrefix(js: Js.Runtime, rootOf: string -> string, profile: Option<string>, files: seq<CodeOwnersFile>, more: seq<CodeOwnersFile>, target: string)
    requires files != []
    requires Resolve(js, rootOf, profile, files + more, target) == NotOwner
    ensures Resolve(js, rootOf, profile, files, target) == NotOwner
  {
    ScanFilesAppend(js, rootOf, files, more, target, profile.value);
  }

  /**
   With a configured name, at least one file and no invalid pattern in
   scope, the verdict is exactly the existential over files and rules: the
   early exits decide nothing of their own.
   */
  lemma ResolveIsExistential(js: Js.Runtime, rootOf: string -> string, profile: Option<string>, files: seq<CodeOwnersFile>, target: string)
    requires !Unset(profile) && files != []
    requires FilesCompile(js, rootOf, files, target)
    ensures Resolve(js, rootOf, profile, files, target) ==
      if Owns(js, rootOf, files, target, profile.value) then Owner else NotOwner
  {
    var r := ScanFiles(js, rootOf, files, target, profile.value);
    if r.InvalidPattern? {
      ScanFilesAborts(js, rootOf, files, target, profile.value);
      assert false;
    }
  }

  /** An abort names a pattern of an in-scope file, so it cannot happen when all of them compile. */
  lemma {:induction false} ScanFilesAborts(js: Js.Runtime, rootOf: string -> string, files: seq<CodeOwnersFile>, target: string, user: string)
    requires ScanFiles(js, rootOf, files, target, user).InvalidPattern?
    ensures !FilesCompile(js, rootOf, files, target)
    decreases |files|
  {
    var here := ScanFile(js, rootOf, files[0], target, user);
    if here == NotOwner {
      ScanFilesAborts(js, rootOf, files[1..], target, user);
      var i :| 0 <= i < |files[1..]| && InScope(rootOf, files[1..][i], target)
        && !RulesCompile(js, ParseFile(js, files[1..][i].content));
      assert files[1..][i] == files[i + 1];
    } else {
      assert InScope(rootOf, files[0], target);
      ScanRulesAborts(js, ParseFile(js, files[0].content), target, user);
    }
  }

  /** An abort in a file's rule scan names a pattern that neither is `*` nor compiles. */
  lemma ScanRulesAborts(js: Js.Runtime, rules: seq<Rule>, target: string, user: string)
    requires ScanRules(js, rules, target, user).InvalidPattern?
    ensures !RulesCompile(js, rules)
  {
    var p := ScanRules(js, rules, target, user).pattern;
    var j :| 0 <= j < |rules| && rules[j].pattern == p;
  }
}

=== FILE: resolver.dfy ===
/**
 The ownership decision of `checkCodeOwners`: the two early outcomes, the
 root directory each CODEOWNERS file governs, and the scan over files and
 rules that stops at the first rule naming the user.
 */
module Resolver {
  import opened Wrappers
  import Js
  import opened Text
  import opened Rules

  /** A CODEOWNERS file found in the workspace: its workspace-relative path and its text. */
  datatype CodeOwnersFile = CodeOwnersFile(relPath: string, content: string)

  /**
   What one check reports. The first two end the check before any file is
   read; `InvalidPattern` is the exception `new RegExp` throws, which
   escapes the check uncaught, so no owner message is shown.
   */
  datatype Verdict =
    | NotConfigured
    | NoCodeOwnersFile
    | Owner
    | NotOwner
    | InvalidPattern(pattern: string)

  /** The profile-name setting is missing or empty (`!githubProfileName`). */
  predicate Unset(profile: Option<string>)
  {
    profile.None? || profile.value == ""
  }

  /**
   `asRelativePath(file).replace(/\/CODEOWNERS$/, '')`: one trailing
   `/CODEOWNERS` is removed; any other path is its own root. A file at the
   workspace root, `CODEOWNERS`, has no slash to match and keeps its name.
   */
  function FileRoot(relPath: string): (root: string)
    ensures EndsWith(relPath, "/CODEOWNERS") ==> relPath == root + "/CODEOWNERS"
    ensures !EndsWith(relPath, "/CODEOWNERS") ==> root == relPath
  {
    if EndsWith(relPath, "/CODEOWNERS") then relPath[..|relPath| - 11] else relPath
  }

  /** Stripping removes exactly one `/CODEOWNERS`, whatever the directory holds. */
  lemma FileRootOfDirectory(dir: string)
    ensures FileRoot(dir + "/CODEOWNERS") == dir
  {
    var p := dir + "/CODEOWNERS";
    assert p[|p| - 11..] == "/CODEOWNERS";
    assert p[..|p| - 11] == dir;
  }

  /**
   Scope is a raw character prefix: a file in `dir` governs every target that
   starts with the characters of `dir`, also across a path-segment boundary
   (`foo` governs `foobar/x`).
   */
  lemma ScopeIsRawPrefix(dir: string, rest: string)
    ensures StartsWith(dir + rest, FileRoot(dir + "/CODEOWNERS"))
  {
    FileRootOfDirectory(dir);
    assert (dir + rest)[..|dir|] == dir;
  }

  /** Every rule's pattern is `*` or compiles, so testing them cannot throw. */
  predicate RulesCompile(js: Js.Runtime, rules: seq<Rule>)
  {
    forall j :: 0 <= j < |rules| ==> rules[j].pattern == "*" || js.compiles(rules[j].pattern)
  }

  /** Some rule both matches the target and lists the user. */
  predicate RulesGrant(js: Js.Runtime, rules: seq<Rule>, target: string, user: string)
  {
    exists j :: 0 <= j < |rules| && RuleGrants(js, rules[j], target, user)
  }

  /**
   The inner loop: rules in file order, testing the pattern first and the
   owner list second, stopping at the first rule that grants and aborting
   at the first pattern that does not compile.
   */
  function ScanRules(js: Js.Runtime, rules: seq<Rule>, target: string, user: string): (r: Verdict)
    ensures r == Owner || r == NotOwner || r.InvalidPattern?
    ensures r == Owner ==> RulesGrant(js, rules, target, user)
    ensures r == NotOwner ==> !RulesGrant(js, rules, target, user) && RulesCompile(js, rules)
    ensures r.InvalidPattern? ==>
      && r.pattern != "*" && !js.compiles(r.pattern)
      && exists j :: 0 <= j < |rules| && rules[j].pattern == r.pattern
    decreases |rules|
  {
    if rules == [] then NotOwner
    else
      var rest := ScanRules(js, rules[1..], target, user);
      assert forall j :: 1 <= j < |rules| ==> rules[j] == rules[1..][j - 1];
      match RuleMatches(js, rules[0].pattern, target)
      case None => InvalidPattern(rules[0].pattern)
      case Some(hit) => if hit && user in rules[0].owners then Owner else rest
  }

  /** The file's root is a prefix of the target, so its rules are consulted. */
  predicate InScope(rootOf: string -> string, file: CodeOwnersFile, target: string)
  {
    StartsWith(target, rootOf(file.relPath))
  }

  /** One of the file's rules has the pattern `p`. */
  predicate FileHasPattern(js: Js.Runtime, file: CodeOwnersFile, p: string)
  {
    exists j :: 0 <= j < |ParseFile(js, file.content)| && ParseFile(js, file.content)[j].pattern == p
  }

  /** Some in-scope file has a rule with the pattern `p`. */
  predicate InScopePattern(js: Js.Runtime, rootOf: string -> string, files: seq<CodeOwnersFile>, target: string, p: string)
  {
    exists i :: 0 <= i < |files| && InScope(rootOf, files[i], target) && FileHasPattern(js, files[i], p)
  }

  /** One file's contribution: its rules' verdict when in scope, nothing otherwise. */
  function ScanFile(js: Js.Runtime, rootOf: string -> string, file: CodeOwnersFile, target: string, user: string): (r: Verdict)
    ensures !InScope(rootOf, file, target) ==> r == NotOwner
    ensures r == Owner ==> FileGrants(js, rootOf, file, target, user)
    ensures r == NotOwner ==>
      && !FileGrants(js, rootOf, file, target, user)
      && (InScope(rootOf, file, target) ==> RulesCompile(js, ParseFile(js, file.content)))
    ensures r.InvalidPattern? ==>
      && InScope(rootOf, file, target) && FileHasPattern(js, file, r.pattern)
      && r.pattern != "*" && !js.compiles(r.pattern)
  {
    if InScope(rootOf, file, target) then ScanRules(js, ParseFile(js, file.content), target, user)
    else NotOwner
  }

  /** An in-scope file has a rule that matches the target and lists the user. */
  predicate FileGrants(js: Js.Runtime, rootOf: string -> string, file: CodeOwnersFile, target: string, user: string)
  {
    InScope(rootOf, file, target) && RulesGrant(js, ParseFile(js, file.content), target, user)
  }

  /** Every in-scope file's patterns compile. */
  predicate FilesCompile(js: Js.Runtime, rootOf: string -> string, files: seq<CodeOwnersFile>, target: string)
  {
    forall i :: 0 <= i < |files| && InScope(rootOf, files[i], target) ==>
      RulesCompile(js, ParseFile(js, files[i].content))
  }

  /** The reference decision: some file, in scope, has some rule that grants ownership. */
  predicate Owns(js: Js.Runtime, rootOf: string -> string, files: seq<CodeOwnersFile>, target: string, user: string)
  {
    exists i :: 0 <= i < |files| && FileGrants(js, rootOf, files[i], target, user)
  }

  /**
   The outer loop: files in the order found, skipping those out of scope,
   stopping at the first file whose rules grant ownership.
   */
  function ScanFiles(js: Js.Runtime, rootOf: string -> string, files: seq<CodeOwnersFile>, target: string, user: string): (r: Verdict)
    ensures r == Owner || r == NotOwner || r.InvalidPattern?
    ensures r == Owner ==> Owns(js, rootOf, files, target, user)
    ensures r == NotOwner ==> !Owns(js, rootOf, files, target, user) && FilesCompile(js, rootOf, files, target)
    ensures r.InvalidPattern? ==>
      && InScopePattern(js, rootOf, files, target, r.pattern)
      && r.pattern != "*" && !js.compiles(r.pattern)
    decreases |files|
  {
    if files == [] then NotOwner
    else
      var rest := ScanFiles(js, rootOf, files[1..], target, user);
      assert forall i :: 1 <= i < |files| ==> files[i] == files[1..][i - 1];
      var here := ScanFile(js, rootOf, files[0], target, user);
      if here == NotOwner then rest else here
  }

  /**
   `checkCodeOwners` with the editor calls taken out: the profile name, the
   CODEOWNERS files found, the target's relative path, and how a file's
   root is derived (`FileRoot` in the source) are all inputs.
   */
  function Resolve(js: Js.Runtime, rootOf: string -> string, profile: Option<string>, files: seq<CodeOwnersFile>, target: string): (r: Verdict)
    ensures r == NotConfigured <==> Unset(profile)
    ensures r == NoCodeOwnersFile <==> !Unset(profile) && files == []
    ensures r == Owner ==> !Unset(profile) && Owns(js, rootOf, files, target, profile.value)
    ensures r == NotOwner ==>
      && !Unset(profile) && files != []
      && !Owns(js, rootOf, files, target, profile.value)
      && FilesCompile(js, rootOf, files, target)
    ensures r.InvalidPattern? ==>
      && !Unset(profile)
      && InScopePattern(js, rootOf, files, target, r.pattern)
      && r.pattern != "*" && !js.compiles(r.pattern)
  {
    if Unset(profile) then NotConfigured
    else if files == [] then NoCodeOwnersFile
    else ScanFiles(js, rootOf, files, target, profile.value)
  }
}

=== FILE: rules.dfy ===
/**
 CODEOWNERS rules: how one line of an ownership file becomes a rule, how a
 whole file becomes its ordered list of rules, and how a rule's pattern is
 tested against a workspace-relative path.
 */
module Rules {
  import opened Wrappers
  import Js
  import opened Text
  import opened Whitespace

  /** One ownership rule: a pattern and the owners listed after it, in line order. */
  datatype Rule = Rule(pattern: string, owners: seq<string>)

  /**
   One line of an ownership file. A line counts only when `line.trim()` is
   non-empty and its first raw character is not `#`; it is then split on
   whitespace runs, and with at least two tokens it is a rule whose pattern
   is token 0 and whose owners are all the later tokens, empty ones included.
   */
  function ParseLine(js: Js.Runtime, line: string): Option<Rule>
  {
    if Trim(js, line) != "" && !StartsWith(line, "#") then
      var parts := Tokenize(js, line);
      if |parts| >= 2 then Some(Rule(parts[0], parts[1..])) else None
    else
      None
  }

  /**
   A line is a rule exactly when it is not all whitespace, does not start
   with `#`, and splits into at least two tokens; the rule is then token 0
   as the pattern and the remaining tokens, in order, as the owners.
   */
  lemma ParseLineIsRuleIff(js: Js.Runtime, line: string)
    ensures ParseLine(js, line).Some? <==>
      && !Blank(js, line)
      && !StartsWith(line, "#")
      && |Tokenize(js, line)| >= 2
    ensures ParseLine(js, line).Some? ==>
      ParseLine(js, line).value == Rule(Tokenize(js, line)[0], Tokenize(js, line)[1..])
  {
    TrimEmptyIffBlank(js, line);
  }

  /** The rules of a sequence of lines, in line order; lines that are not rules are dropped. */
  function RulesOf(js: Js.Runtime, lines: seq<string>): (rules: seq<Rule>)
    ensures |rules| <= |lines|
    decreases |lines|
  {
    if lines == [] then []
    else
      var rest := RulesOf(js, lines[1..]);
      match ParseLine(js, lines[0])
      case None => rest
      case Some(rule) => [rule] + rest
  }

  /** The rules of an ownership file's content, split on `\r?\n`. */
  function ParseFile(js: Js.Runtime, content: string): seq<Rule>
  {
    RulesOf(js, SplitLines(content))
  }

  /**
   A file's rules are the rules of its lines, whichever mix of `\n` and
   `\r\n` ends them: the same lines give the same rules.
   */
  lemma ParseFileOfLines(js: Js.Runtime, lines: seq<string>, breaks: seq<string>)
    requires LineSplit(lines, breaks)
    ensures ParseFile(js, Weave(lines, breaks)) == RulesOf(js, lines)
  {
    SplitWeave(lines, breaks);
  }

  /** Rule extraction respects line order: the rules of two blocks of lines are the two lists, in order. */
  lemma {:induction false} RulesOfAppend(js: Js.Runtime, a: seq<string>, b: seq<string>)
    ensures RulesOf(js, a + b) == RulesOf(js, a) + RulesOf(js, b)
    decreases |a|
  {
    if a != [] {
      assert (a + b)[0] == a[0] && (a + b)[1..] == a[1..] + b;
      RulesOfAppend(js, a[1..], b);
    } else {
      assert a + b == b;
    }
  }

  /**
   A line led by whitespace that is not all whitespace is a rule with the
   empty pattern (which the regex engine then receives as `new RegExp("")`).
   */
  lemma LeadingSpaceGivesEmptyPattern(js: Js.Runtime, line: string)
    requires !js.isSpace('#')
    requires line != "" && js.isSpace(line[0])
    requires !Blank(js, line)
    ensures ParseLine(js, line).Some?
    ensures ParseLine(js, line).value.pattern == ""
    ensures ParseLine(js, line).value.owners == Tokenize(js, line)[1..]
  {
    TokenizeShape(js, line);
    assert !NoSpace(js, line);
    assert line[..1] == [line[0]];
    ParseLineIsRuleIff(js, line);
  }

  /**
   `#` is recognised only in column 0: an indented comment line holding a
   word is a rule with the empty pattern whose first owner is the token
   starting with `#`.
   */
  lemma {:induction false} IndentedCommentIsRule(js: Js.Runtime, indent: string, comment: string)
    requires indent != "" && Blank(js, indent)
    requires comment != "" && comment[0] == '#' && !js.isSpace('#')
    ensures var r := ParseLine(js, indent + comment);
      && r.Some?
      && r.value.pattern == ""
      && |r.value.owners| >= 1
      && r.value.owners[0] != ""
      && r.value.owners[0][0] == '#'
  {
    var line := indent + comment;
    assert line[|indent|] == '#';
    assert line[0] == indent[0];
    LeadingSpaceGivesEmptyPattern(js, line);
    TokenizeAfterIndent(js, indent, comment);
  }

  /** Trailing whitespace after a rule adds an empty owner at the end of the list. */
  lemma TrailingSpaceAddsEmptyOwner(js: Js.Runtime, line: string)
    requires ParseLine(js, line).Some?
    requires js.isSpace(line[|line| - 1])
    ensures var owners := ParseLine(js, line).value.owners;
      |owners| >= 1 && owners[|owners| - 1] == ""
  {
    TokenizeShape(js, line);
    ParseLineIsRuleIff(js, line);
  }

  /** A line without whitespace is never a rule: a pattern alone names no owner. */
  lemma SingleWordIsNoRule(js: Js.Runtime, line: string)
    requires NoSpace(js, line)
    ensures ParseLine(js, line) == None
  {
    TokenizeShape(js, line);
  }

  /**
   Parsing inverts rendering: a pattern and owners that are non-empty words
   without whitespace, the pattern not starting with `#`, written on one
   line separated by single whitespace characters, parse back to that rule.
   */
  lemma RenderedRuleParses(js: Js.Runtime, pattern: string, owners: seq<string>, sep: char)
    requires pattern != "" && NoSpace(js, pattern) && pattern[0] != '#'
    requires |owners| >= 1
    requires forall k :: 0 <= k < |owners| ==> owners[k] != "" && NoSpace(js, owners[k])
    requires js.isSpace(sep)
    ensures ParseLine(js, JoinWords([pattern] + owners, sep)) == Some(Rule(pattern, owners))
  {
    var words := [pattern] + owners;
    var line := JoinWords(words, sep);
    TokenizeJoin(js, words, sep);
    JoinWordsStart(words, sep);
    ParseLineIsRuleIff(js, line);
    assert !Blank(js, line) by {
      assert !js.isSpace(line[0]);
    }
    assert !StartsWith(line, "#") by {
      assert line[..1] == [pattern[0]];
    }
    assert words[1..] == owners;
  }

  /**
   `pattern === '*' || path.match(new RegExp(pattern))`. The wildcard is
   decided without the regex engine. Any other pattern is compiled first;
   `None` stands for the exception `new RegExp` throws on an invalid pattern,
   which the source does not catch.
   */
  function RuleMatches(js: Js.Runtime, pattern: string, path: string): (r: Option<bool>)
    ensures pattern == "*" ==> r == Some(true)
    ensures pattern != "*" ==> (r.None? <==> !js.compiles(pattern))
    ensures pattern != "*" && r.Some? ==> (r.value <==> js.search(pattern, path))
  {
    if pattern == "*" then Some(true)
    else if !js.compiles(pattern) then None
    else Some(js.search(pattern, path))
  }

  /** The wildcard rule's answer does not depend on the runtime at all. */
  lemma StarNeedsNoEngine(js1: Js.Runtime, js2: Js.Runtime, path1: string, path2: string)
    ensures RuleMatches(js1, "*", path1) == RuleMatches(js2, "*", path2) == Some(true)
  {
  }

  /** `parts.slice(1).includes(user)`: the rule's pattern matches the path and the user is listed. */
  predicate RuleGrants(js: Js.Runtime, rule: Rule, path: string, user: string)
  {
    RuleMatches(js, rule.pattern, path) == Some(true) && user in rule.owners
  }
}

=== FILE: scenarios.dfy ===
/**
 Concrete workspaces and the verdicts the model gives them, and the one place where the
 source evidently departs from its intent: a CODEOWNERS file at the
 workspace root is scoped to paths starting with the text `CODEOWNERS`.
 */
module Scenarios {
  import opened Wrappers
  import Js
  import opened Text
  import opened Whitespace
  import opened Rules
  import opened Resolver

  /**
   The root derivation the source evidently intends: a file at the
   workspace root governs the whole workspace, every other file is treated
   as `FileRoot` treats it.
   */
  function IntendedRoot(relPath: string): (root: string)
    ensures relPath == "CODEOWNERS" ==> forall t: string :: StartsWith(t, root)
    ensures EndsWith(relPath, "/CODEOWNERS") ==> relPath == root + "/CODEOWNERS"
    ensures relPath != "CODEOWNERS" && !EndsWith(relPath, "/CODEOWNERS") ==> root == relPath
  {
    if relPath == "CODEOWNERS" then "" else FileRoot(relPath)
  }

  /** Under the intended derivation the root-level file is in scope for every target. */
  lemma IntendedRootFileGovernsAll(target: string)
    ensures InScope(IntendedRoot, CodeOwnersFile("CODEOWNERS", ""), target)
  {
    assert target[..0] == "";
  }

  /**
   As written, a root-level file keeps the name `CODEOWNERS` as its root,
   so with it as the only file every ordinary target is "not owner",
   whatever the file says.
   */
  lemma RootFileGovernsOnlyItsName(js: Js.Runtime, profile: Option<string>, content: string, target: string)
    requires !Unset(profile)
    requires !StartsWith(target, "CODEOWNERS")
    ensures Resolve(js, FileRoot, profile, [CodeOwnersFile("CODEOWNERS", content)], target) == NotOwner
  {
    var file := CodeOwnersFile("CODEOWNERS", content);
    assert !EndsWith("CODEOWNERS", "/CODEOWNERS");
    assert !InScope(FileRoot, file, target);
    OneFileWorkspace(js, FileRoot, profile, file, target);
  }

  /** Words of printable ASCII other than the space contain no whitespace. */
  lemma AsciiWord(js: Js.Runtime, w: string)
    requires Js.AsciiSpaces(js)
    requires forall i :: 0 <= i < |w| ==> '!' <= w[i] <= '~'
    ensures NoSpace(js, w)
  {
  }

  /** A one-line file `pattern owner...` holds exactly that one rule. */
  lemma OneRuleFile(js: Js.Runtime, pattern: string, owners: seq<string>)
    requires Js.AsciiSpaces(js)
    requires pattern != "" && pattern[0] != '#'
    requires forall i :: 0 <= i < |pattern| ==> '!' <= pattern[i] <= '~'
    requires |owners| >= 1 && AsciiWords(owners)
    ensures ParseFile(js, JoinWords([pattern] + owners, ' ')) == [Rule(pattern, owners)]
  {
    var line := JoinWords([pattern] + owners, ' ');
    AsciiWord(js, pattern);
    forall k | 0 <= k < |owners|
      ensures NoSpace(js, owners[k])
    {
      AsciiWord(js, owners[k]);
    }
    RenderedRuleParses(js, pattern, owners, ' ');
    NoLineBreak([pattern] + owners);
    SplitLinesSingle(line);
  }

  /** Joining words of printable ASCII with spaces introduces no line break. */
  lemma NoLineBreak(words: seq<string>)
    requires forall k :: 0 <= k < |words| ==>
      forall i :: 0 <= i < |words[k]| ==> '!' <= words[k][i] <= '~'
    ensures '\n' !in JoinWords(words, ' ')
  {
    if words != [] {
      forall k | 0 <= k < |words|
        ensures '\n' !in words[k]
      {
        assert forall i :: 0 <= i < |words[k]| ==> words[k][i] != '\n';
      }
      WeaveAvoids('\n', words, Repeat([' '], |words| - 1));
    }
  }

  /** With a configured name and one file, the verdict is that file's alone. */
  lemma OneFileWorkspace(js: Js.Runtime, rootOf: string -> string, profile: Option<string>, file: CodeOwnersFile, target: string)
    requires !Unset(profile)
    ensures Resolve(js, rootOf, profile, [file], target) == ScanFile(js, rootOf, file, target, profile.value)
  {
    var user := profile.value;
    assert [file][1..] == [];
    assert ScanFiles(js, rootOf, [], target, user) == NotOwner;
    assert ScanFiles(js, rootOf, [file], target, user) == ScanFile(js, rootOf, file, target, user);
  }

  /** Printable ASCII other than the space, the characters a plain word is made of. */
  predicate AsciiWords(words: seq<string>)
  {
    forall k :: 0 <= k < |words| ==>
      words[k] != "" && (forall i :: 0 <= i < |words[k]| ==> '!' <= words[k][i] <= '~')
  }

  /** The verdict of a single rule: its pattern's test first, its owner list second. */
  lemma SingleRuleVerdict(js: Js.Runtime, rule: Rule, target: string, user: string)
    ensures ScanRules(js, [rule], target, user) ==
      match RuleMatches(js, rule.pattern, target)
      case None => InvalidPattern(rule.pattern)
      case Some(hit) => if hit && user in rule.owners then Owner else NotOwner
  {
    assert [rule][1..] == [];
  }

  /**
   A workspace whose only ownership file is a root-level `* owner...`, and a
   listed user editing any file outside a `CODEOWNERS...` path: owner under
   the intended root, "not owner" as the source is written.
   */
  lemma RootWildcard(js: Js.Runtime, owners: seq<string>, user: string, target: string)
    requires Js.AsciiSpaces(js)
    requires |owners| >= 1 && AsciiWords(owners)
    requires user != "" && user in owners
    requires !StartsWith(target, "CODEOWNERS")
    ensures var file := CodeOwnersFile("CODEOWNERS", JoinWords(["*"] + owners, ' '));
      && Resolve(js, IntendedRoot, Some(user), [file], target) == Owner
      && Resolve(js, FileRoot, Some(user), [file], target) == NotOwner
  {
    var file := CodeOwnersFile("CODEOWNERS", JoinWords(["*"] + owners, ' '));
    OneRuleFile(js, "*", owners);
    IntendedRootFileGovernsAll(target);
    assert InScope(IntendedRoot, file, target);
    assert ScanRules(js, [Rule("*", owners)], target, user) == Owner;
    OneFileWorkspace(js, IntendedRoot, Some(user), file, target);
    RootFileGovernsOnlyItsName(js, Some(user), file.content, target);
  }

  /**
   Under the corrected root, a root-level `pattern owner...` that does not
   list the user is never ownership. Any pattern but `*` goes to the regex
   engine before the owner list is read, so one that does not compile ends
   the check instead. (As written the file is out of scope for these
   targets and the pattern is never tested: `RootFileGovernsOnlyItsName`.)
   */
  lemma RootRuleForOthers(js: Js.Runtime, pattern: string, owners: seq<string>, user: string, target: string)
    requires Js.AsciiSpaces(js)
    requires pattern != "" && pattern[0] != '#' && AsciiWords([pattern] + owners)
    requires |owners| >= 1 && user !in owners
    requires user != ""
    ensures var file := CodeOwnersFile("CODEOWNERS", JoinWords([pattern] + owners, ' '));
      Resolve(js, IntendedRoot, Some(user), [file], target) ==
        if pattern == "*" || js.compiles(pattern) then NotOwner else InvalidPattern(pattern)
  {
    var file := CodeOwnersFile("CODEOWNERS", JoinWords([pattern] + owners, ' '));
    assert ([pattern] + owners)[0] == pattern;
    assert forall k :: 0 <= k < |owners| ==> owners[k] == ([pattern] + owners)[k + 1];
    OneRuleFile(js, pattern, owners);
    IntendedRootFileGovernsAll(target);
    assert InScope(IntendedRoot, file, target);
    SingleRuleVerdict(js, Rule(pattern, owners), target, user);
    OneFileWorkspace(js, IntendedRoot, Some(user), file, target);
  }

  /**
   `pattern owner...` in `dir/CODEOWNERS`, a listed user editing a file under
   `dir`, and a pattern the engine rejects: the exception ends the check;
   the rule is not skipped.
   */
  lemma InvalidPatternAborts(js: Js.Runtime, dir: string, pattern: string, owners: seq<string>, user: string, rest: string)
    requires Js.AsciiSpaces(js)
    requires pattern != "" && pattern[0] != '#' && AsciiWords([pattern] + owners)
    requires |owners| >= 1 && user != ""
    requires pattern != "*" && !js.compiles(pattern)
    ensures var file := CodeOwnersFile(dir + "/CODEOWNERS", JoinWords([pattern] + owners, ' '));
      Resolve(js, FileRoot, Some(user), [file], dir + rest) == InvalidPattern(pattern)
  {
    var file := CodeOwnersFile(dir + "/CODEOWNERS", JoinWords([pattern] + owners, ' '));
    assert ([pattern] + owners)[0] == pattern;
    assert forall k :: 0 <= k < |owners| ==> owners[k] == ([pattern] + owners)[k + 1];
    OneRuleFile(js, pattern, owners);
    SingleRuleVerdict(js, Rule(pattern, owners), dir + rest, user);
    ScopeIsRawPrefix(dir, rest);
    assert InScope(FileRoot, file, dir + rest);
    OneFileWorkspace(js, FileRoot, Some(user), file, dir + rest);
  }

  /** Root `foo` governs `foobar/x`: scope has no path-segment boundary. */
  lemma SiblingDirectoryInScope()
    ensures InScope(FileRoot, CodeOwnersFile("foo/CODEOWNERS", ""), "foobar/x")
  {
    ScopeIsRawPrefix("foo", "bar/x");
    assert "foo" + "bar/x" == "foobar/x";
  }
}

=== FILE: text.dfy ===
/**
 Plain string operations the resolver uses: prefix and suffix tests and the
 splitting of a CODEOWNERS file's content into lines on `\r?\n`.
 Strings are sequences of characters; nothing here depends on the JavaScript
 runtime's character classes.
 */
module Text {

  /** `s.startsWith(p)`: a raw character prefix, with no notion of path segments. */
  predicate StartsWith(s: string, p: string)
  {
    |p| <= |s| && s[..|p|] == p
  }

  /** `s` ends with `q`, as the anchor `q$` tests it (no multiline flag). */
  predicate EndsWith(s: string, q: string)
  {
    |q| <= |s| && s[|s| - |q|..] == q
  }

  /** `lines.join("\n")`: the lines woven with a single `\n` between neighbours. */
  function JoinLines(lines: seq<string>): string
  {
    if lines == [] then "" else Weave(lines, Repeat("\n", |lines| - 1))
  }

  /** `n` copies of the separator `sep`. */
  function Repeat(sep: string, n: nat): seq<string>
  {
    seq(n, _ => sep)
  }

  /**
   `s.split(/\r?\n/)`: every `\n` ends a line, and a `\r` directly before it
   belongs to the separator. A `\r` anywhere else, including at the very end
   of the text, stays in its line. There is always at least one line.
   */
  function SplitLines(s: string): (lines: seq<string>)
    ensures |lines| >= 1
    decreases |s|
  {
    if s == "" then [""]
    else if s[0] == '\n' then [""] + SplitLines(s[1..])
    else if s[0] == '\r' && |s| >= 2 && s[1] == '\n' then [""] + SplitLines(s[2..])
    else
      var rest := SplitLines(s[1..]);
      [[s[0]] + rest[0]] + rest[1..]
  }

  /** No line holds a `\n`, and there is one line more than there are `\n`s. */
  lemma {:induction false} SplitLinesCount(s: string)
    ensures forall k :: 0 <= k < |SplitLines(s)| ==> '\n' !in SplitLines(s)[k]
    ensures |SplitLines(s)| == Count(s, '\n') + 1
    decreases |s|
  {
    if s != "" {
      SplitLinesCount(s[1..]);
      if s[0] == '\r' && |s| >= 2 && s[1] == '\n' {
        SplitLinesCount(s[2..]);
        assert s[1..][1..] == s[2..];
      }
    }
  }

  /** How many times `c` occurs in `s`. */
  function Count(s: string, c: char): nat
  {
    if s == "" then 0 else (if s[0] == c then 1 else 0) + Count(s[1..], c)
  }

  /** Text without a line break is a single line, unchanged (even with a stray `\r`). */
  lemma {:induction false} SplitLinesSingle(s: string)
    requires '\n' !in s
    ensures SplitLines(s) == [s]
    decreases |s|
  {
    if s != "" {
      assert '\n' !in s[1..];
      SplitLinesSingle(s[1..]);
      assert [s[0]] + s[1..] == s;
    }
  }

  /** A character that does not start a line break joins the first line of what follows. */
  lemma SplitLinesCons(c: char, u: string)
    requires c != '\n'
    requires !(c == '\r' && u != "" && u[0] == '\n')
    ensures SplitLines([c] + u) == [[c] + SplitLines(u)[0]] + SplitLines(u)[1..]
  {
    assert ([c] + u)[1..] == u;
  }

  /**
   A first line that neither holds a `\n` nor ends in `\r`, followed by `\n`,
   is split off exactly.
   */
  lemma {:induction false} SplitLinesFirst(l: string, t: string)
    requires '\n' !in l
    requires !EndsWith(l, "\r")
    ensures SplitLines(l + "\n" + t) == [l] + SplitLines(t)
    decreases |l|
  {
    if l == "" {
      assert l + "\n" + t == ['\n'] + t;
      assert (['\n'] + t)[1..] == t;
    } else {
      var l' := l[1..];
      var u := l' + "\n" + t;
      assert l == [l[0]] + l';
      assert l + "\n" + t == [l[0]] + u;
      assert '\n' !in l';
      if l' == "" {
        assert l[|l| - 1..] == [l[0]];
        assert u[0] == '\n' && l[0] != '\r';
      } else {
        assert l'[|l'| - 1..] == l[|l| - 1..];
        assert u[0] == l'[0] && u[0] != '\n';
      }
      SplitLinesCons(l[0], u);
      SplitLinesFirst(l', t);
    }
  }

  /**
   Splitting inverts joining: lines without a `\n`, none but the last ending
   in `\r`, come back exactly.
   */
  lemma SplitJoin(lines: seq<string>)
    requires |lines| >= 1
    requires forall k :: 0 <= k < |lines| ==> '\n' !in lines[k]
    requires forall k :: 0 <= k < |lines| - 1 ==> !EndsWith(lines[k], "\r")
    ensures SplitLines(JoinLines(lines)) == lines
  {
    var breaks := Repeat("\n", |lines| - 1);
    assert LineSplit(lines, breaks);
    SplitWeave(lines, breaks);
  }

  /** Joining inverts splitting for text without any `\r`. */
  lemma JoinSplit(s: string)
    requires '\r' !in s
    ensures JoinLines(SplitLines(s)) == s
  {
    WeaveSplit(s);
    LineBreaksWithoutCr(s);
  }

  /** Text without `\r` breaks only at bare `\n`s. */
  lemma {:induction false} LineBreaksWithoutCr(s: string)
    requires '\r' !in s
    ensures LineBreaks(s) == Repeat("\n", |LineBreaks(s)|)
    decreases |s|
  {
    if s != "" {
      assert '\r' !in s[1..];
      LineBreaksWithoutCr(s[1..]);
      var n := |LineBreaks(s[1..])|;
      if s[0] == '\n' {
        assert ["\n"] + Repeat("\n", n) == Repeat("\n", n + 1);
      }
    }
  }

  /** A character found in no piece and no separator is not in their weave. */
  lemma {:induction false} WeaveAvoids(c: char, pieces: seq<string>, seps: seq<string>)
    requires |pieces| == |seps| + 1
    requires forall k :: 0 <= k < |pieces| ==> c !in pieces[k]
    requires forall k :: 0 <= k < |seps| ==> c !in seps[k]
    ensures c !in Weave(pieces, seps)
    decreases |seps|
  {
    if seps != [] {
      assert forall k :: 0 <= k < |seps| - 1 ==> pieces[1..][k] == pieces[k + 1] && seps[1..][k] == seps[k + 1];
      WeaveAvoids(c, pieces[1..], seps[1..]);
      assert c !in pieces[0] && c !in seps[0];
    }
  }

  /**
   `pieces[0] + seps[0] + pieces[1] + … + pieces[|pieces| - 1]`: the pieces
   with one separator between each pair of neighbours.
   */
  function Weave(pieces: seq<string>, seps: seq<string>): string
    requires |pieces| == |seps| + 1
    decreases |seps|
  {
    if seps == [] then pieces[0] else pieces[0] + seps[0] + Weave(pieces[1..], seps[1..])
  }

  /** Putting text in front of the first piece puts it in front of the whole. */
  lemma WeaveFirst(p: string, pieces: seq<string>, seps: seq<string>)
    requires |pieces| == |seps| + 1
    ensures Weave([p + pieces[0]] + pieces[1..], seps) == p + Weave(pieces, seps)
  {
    var q := [p + pieces[0]] + pieces[1..];
    assert q[0] == p + pieces[0] && q[1..] == pieces[1..];
  }

  /**
   Lines and the breaks between them as `split(/\r?\n/)` cuts them: no line
   holds a `\n`, every break is `\n` or `\r\n`, and a line before a bare
   `\n` does not end in `\r` (that `\r` would belong to the break).
   */
  predicate LineSplit(lines: seq<string>, breaks: seq<string>)
  {
    && |lines| == |breaks| + 1
    && (forall k :: 0 <= k < |lines| ==> '\n' !in lines[k])
    && (forall k :: 0 <= k < |breaks| ==>
          breaks[k] == "\r\n" || (breaks[k] == "\n" && !EndsWith(lines[k], "\r")))
  }

  /** The line breaks `SplitLines` cuts `s` at, in order: each `\n`, with a `\r` directly before it. */
  function LineBreaks(s: string): seq<string>
    decreases |s|
  {
    if s == "" then []
    else if s[0] == '\n' then ["\n"] + LineBreaks(s[1..])
    else if s[0] == '\r' && |s| >= 2 && s[1] == '\n' then ["\r\n"] + LineBreaks(s[2..])
    else LineBreaks(s[1..])
  }

  /** Every text is its lines woven with its line breaks. */
  lemma {:induction false} WeaveSplit(s: string)
    ensures |SplitLines(s)| == |LineBreaks(s)| + 1
    ensures Weave(SplitLines(s), LineBreaks(s)) == s
    decreases |s|
  {
    if s == "" {
    } else if s[0] == '\n' || (s[0] == '\r' && |s| >= 2 && s[1] == '\n') {
      var b := if s[0] == '\n' then "\n" else "\r\n";
      var t := s[|b|..];
      WeaveSplit(t);
      var lines, breaks := [""] + SplitLines(t), [b] + LineBreaks(t);
      assert SplitLines(s) == lines && LineBreaks(s) == breaks;
      assert lines[1..] == SplitLines(t) && breaks[1..] == LineBreaks(t);
      assert s == b + t;
    } else {
      var t := s[1..];
      WeaveSplit(t);
      var rest := SplitLines(t);
      WeaveFirst([s[0]], rest, LineBreaks(t));
      assert s == [s[0]] + t;
    }
  }

  /** The lines and breaks `SplitLines` and `LineBreaks` cut are well formed. */
  lemma {:induction false} SplitIsLineSplit(s: string)
    ensures LineSplit(SplitLines(s), LineBreaks(s))
    decreases |s|
  {
    if s == "" {
    } else if s[0] == '\n' || (s[0] == '\r' && |s| >= 2 && s[1] == '\n') {
      var b := if s[0] == '\n' then "\n" else "\r\n";
      var t := s[|b|..];
      SplitIsLineSplit(t);
      LineSplitBreak(b, SplitLines(t), LineBreaks(t));
    } else {
      var t := s[1..];
      SplitIsLineSplit(t);
      WeaveSplit(t);
      LineSplitCons(s[0], SplitLines(t), LineBreaks(t), t);
    }
  }

  /** An empty line and a break in front of well-formed lines keep them well formed. */
  lemma LineSplitBreak(b: string, lines: seq<string>, breaks: seq<string>)
    requires b == "\n" || b == "\r\n"
    requires LineSplit(lines, breaks)
    ensures LineSplit([""] + lines, [b] + breaks)
  {
    assert !EndsWith("", "\r");
    var ls, bs := [""] + lines, [b] + breaks;
    assert forall k :: 1 <= k < |ls| ==> ls[k] == lines[k - 1];
    assert forall k :: 1 <= k < |bs| ==> bs[k] == breaks[k - 1];
  }

  /**
   A character that does not start a break, put in front of well-formed
   lines, keeps them well formed: a `\r` so placed is never directly before
   a `\n`, so it cannot end a line followed by a bare `\n`.
   */
  lemma LineSplitCons(c: char, lines: seq<string>, breaks: seq<string>, t: string)
    requires LineSplit(lines, breaks) && Weave(lines, breaks) == t
    requires c != '\n' && !(c == '\r' && t != "" && t[0] == '\n')
    ensures LineSplit([[c] + lines[0]] + lines[1..], breaks)
  {
    var first := [c] + lines[0];
    var ls := [first] + lines[1..];
    assert forall k :: 1 <= k < |ls| ==> ls[k] == lines[k];
    assert '\n' !in first;
    if breaks != [] && breaks[0] == "\n" {
      assert t == lines[0] + "\n" + Weave(lines[1..], breaks[1..]);
      if lines[0] == "" {
        assert t[0] == '\n';
        assert first[|first| - 1..] == [c];
      } else {
        assert !EndsWith(lines[0], "\r");
        assert first[|first| - 1..] == lines[0][|lines[0]| - 1..];
      }
      assert !EndsWith(first, "\r");
    }
  }

  /** A line without `\n` followed by `\r\n` is split off exactly, even if it ends in `\r` itself. */
  lemma {:induction false} SplitOffCrLf(l: string, t: string)
    requires forall i :: 0 <= i < |l| ==> l[i] != '\n'
    ensures SplitLines(l + "\r\n" + t) == [l] + SplitLines(t)
    decreases |l|
  {
    if l == "" {
      assert l + "\r\n" + t == ['\r', '\n'] + t;
      assert (['\r', '\n'] + t)[2..] == t;
    } else {
      var l' := l[1..];
      var u := l' + "\r\n" + t;
      assert l + "\r\n" + t == [l[0]] + u by {
        assert l == [l[0]] + l';
      }
      assert u[0] == if l' == "" then '\r' else l'[0];
      SplitLinesCons(l[0], u);
      SplitOffCrLf(l', t);
      assert [l[0]] + l' == l;
    }
  }

  /**
   Splitting inverts weaving: well-formed lines joined with any mix of `\n`
   and `\r\n` breaks come back exactly. With `WeaveSplit` this pins
   `SplitLines(s)` down as the one well-formed way to cut `s` into lines.
   */
  lemma {:induction false} SplitWeave(lines: seq<string>, breaks: seq<string>)
    requires LineSplit(lines, breaks)
    ensures SplitLines(Weave(lines, breaks)) == lines
    decreases |breaks|
  {
    if breaks == [] {
      SplitLinesSingle(lines[0]);
    } else {
      var t := Weave(lines[1..], breaks[1..]);
      assert LineSplit(lines[1..], breaks[1..]) by {
        assert forall k :: 0 <= k < |lines| - 1 ==> lines[1..][k] == lines[k + 1];
        assert forall k :: 0 <= k < |breaks| - 1 ==> breaks[1..][k] == breaks[k + 1];
      }
      SplitWeave(lines[1..], breaks[1..]);
      assert '\n' !in lines[0];
      if breaks[0] == "\n" {
        SplitLinesFirst(lines[0], t);
      } else {
        SplitOffCrLf(lines[0], t);
      }
      assert [lines[0]] + lines[1..] == lines;
    }
  }
}

=== FILE: whitespace.dfy ===
/**
 Whitespace handling of a CODEOWNERS line: `line.trim()` and
 `line.split(/\s+/)`, both over the runtime's abstract whitespace set.
 */
module Whitespace {
  import Js
  import opened Text

  /** No character of `w` is whitespace. */
  predicate NoSpace(js: Js.Runtime, w: string)
  {
    forall i :: 0 <= i < |w| ==> !js.isSpace(w[i])
  }

  /** Every character of `s` is whitespace (the empty string included). */
  predicate Blank(js: Js.Runtime, s: string)
  {
    forall i :: 0 <= i < |s| ==> js.isSpace(s[i])
  }

  /** `s` with its leading whitespace removed. */
  function TrimStart(js: Js.Runtime, s: string): string
    decreases |s|
  {
    if s != "" && js.isSpace(s[0]) then TrimStart(js, s[1..]) else s
  }

  /** `s` with its trailing whitespace removed. */
  function TrimEnd(js: Js.Runtime, s: string): string
    decreases |s|
  {
    if s != "" && js.isSpace(s[|s| - 1]) then TrimEnd(js, s[..|s| - 1]) else s
  }

  /** `s.trim()`: leading and trailing whitespace removed. */
  function Trim(js: Js.Runtime, s: string): string
  {
    TrimEnd(js, TrimStart(js, s))
  }

  /** Trimming the start drops a whitespace prefix and keeps the rest, which starts with a non-space. */
  lemma {:induction false} TrimStartShape(js: Js.Runtime, s: string)
    ensures var r := TrimStart(js, s);
      && |r| <= |s| && r == s[|s| - |r|..]
      && Blank(js, s[..|s| - |r|])
      && (r == "" || !js.isSpace(r[0]))
    decreases |s|
  {
    if s != "" && js.isSpace(s[0]) {
      TrimStartShape(js, s[1..]);
      var r := TrimStart(js, s[1..]);
      var d := |s| - |r|;
      assert s[1..][|s| - 1 - |r|..] == s[d..];
      assert forall i :: 1 <= i < d ==> s[..d][i] == s[1..][..d - 1][i - 1];
    }
  }

  /** Trimming the end drops a whitespace suffix and keeps the rest, which ends with a non-space. */
  lemma {:induction false} TrimEndShape(js: Js.Runtime, s: string)
    ensures var r := TrimEnd(js, s);
      && |r| <= |s| && r == s[..|r|]
      && Blank(js, s[|r|..])
      && (r == "" || !js.isSpace(r[|r| - 1]))
    decreases |s|
  {
    if s != "" && js.isSpace(s[|s| - 1]) {
      var s' := s[..|s| - 1];
      TrimEndShape(js, s');
      var r := TrimEnd(js, s');
      assert s'[..|r|] == s[..|r|];
      assert s[|r|..] == s'[|r|..] + [s[|s| - 1]];
    }
  }

  /** `line.trim()` is falsy exactly when the line is all whitespace. */
  lemma TrimEmptyIffBlank(js: Js.Runtime, s: string)
    ensures Trim(js, s) == "" <==> Blank(js, s)
  {
    var t := TrimStart(js, s);
    var d := |s| - |t|;
    TrimStartShape(js, s);
    TrimEndShape(js, t);
    if Trim(js, s) == "" {
      assert t == "";
      assert s[..d] == s;
    } else {
      var r := Trim(js, s);
      assert r[0] == t[0] && !js.isSpace(r[0]);
      assert t[0] == s[d];
    }
  }

  /**
   `s.split(/\s+/)` for a regex that cannot match the empty string: the
   maximal whitespace runs separate the tokens.
   */
  function Tokenize(js: Js.Runtime, s: string): (tokens: seq<string>)
    ensures |tokens| >= 1
    decreases |s|
  {
    if s == "" then [""]
    else
      var rest := Tokenize(js, s[1..]);
      if js.isSpace(s[0]) then
        // a run continuing into `rest` was already counted there
        if s[1..] != "" && js.isSpace(s[1]) then rest else [""] + rest
      else
        [[s[0]] + rest[0]] + rest[1..]
  }

  /**
   The tokens hold no whitespace. A whitespace run at the very start yields
   an empty first token, one at the very end an empty last token, and every
   token in between is a non-empty word; text without whitespace is its own
   single token.
   */
  lemma {:induction false} TokenizeShape(js: Js.Runtime, s: string)
    ensures var tokens := Tokenize(js, s);
      && (forall k :: 0 <= k < |tokens| ==> NoSpace(js, tokens[k]))
      && (forall k :: 0 < k < |tokens| - 1 ==> tokens[k] != "")
      && (tokens[0] == "" <==> s == "" || js.isSpace(s[0]))
      && (tokens[|tokens| - 1] == "" <==> s == "" || js.isSpace(s[|s| - 1]))
      && (|tokens| == 1 <==> NoSpace(js, s))
      && (|tokens| == 1 ==> tokens[0] == s)
    decreases |s|
  {
    if s != "" {
      TokenizeShape(js, s[1..]);
    }
  }

  /** `words.join(sep)`: the words woven with `sep` between neighbours. */
  function JoinWords(words: seq<string>, sep: char): string
  {
    if words == [] then "" else Weave(words, Repeat([sep], |words| - 1))
  }

  /**
   Tokenizing inverts joining: non-empty whitespace-free words joined with
   one whitespace character come back as the same words.
   */
  lemma TokenizeJoin(js: Js.Runtime, words: seq<string>, sep: char)
    requires |words| >= 1
    requires forall k :: 0 <= k < |words| ==> words[k] != "" && NoSpace(js, words[k])
    requires js.isSpace(sep)
    ensures Tokenize(js, JoinWords(words, sep)) == words
  {
    var gaps := Repeat([sep], |words| - 1);
    assert Blank(js, [sep]);
    assert TokenSplit(js, words, gaps);
    WeaveTokenize(js, words, gaps);
  }

  /** A join of non-empty words starts with the first word's first character. */
  lemma JoinWordsStart(words: seq<string>, sep: char)
    requires |words| >= 1 && words[0] != ""
    ensures JoinWords(words, sep) != "" && JoinWords(words, sep)[0] == words[0][0]
  {
  }

  /** Whitespace before text that starts with a non-space (or before nothing) contributes one empty token. */
  lemma {:induction false} TokenizeAfterIndent(js: Js.Runtime, indent: string, t: string)
    requires Blank(js, indent)
    requires t == "" || !js.isSpace(t[0])
    ensures indent != "" ==> Tokenize(js, indent + t) == [""] + Tokenize(js, t)
    decreases |indent|
  {
    if indent != "" {
      var s := indent + t;
      assert s[1..] == indent[1..] + t;
      TokenizeAfterIndent(js, indent[1..], t);
      if indent[1..] == "" {
        assert s[1..] == t;
      } else {
        assert s[1] == indent[1];
      }
    }
  }

  /** A whitespace-free prefix joins the first token of whatever follows it. */
  lemma {:induction false} TokenizeWordPrefix(js: Js.Runtime, w: string, u: string)
    requires NoSpace(js, w)
    ensures Tokenize(js, w + u) == [w + Tokenize(js, u)[0]] + Tokenize(js, u)[1..]
    decreases |w|
  {
    if w != "" {
      var s := w + u;
      assert s[1..] == w[1..] + u;
      TokenizeWordPrefix(js, w[1..], u);
      var r := Tokenize(js, s[1..]);
      assert Tokenize(js, s) == [[w[0]] + r[0]] + r[1..];
      assert [w[0]] + (w[1..] + Tokenize(js, u)[0]) == w + Tokenize(js, u)[0];
    } else {
      var tu := Tokenize(js, u);
      assert w + u == u && w + tu[0] == tu[0];
      assert [tu[0]] + tu[1..] == tu;
    }
  }

  /**
   The whitespace runs `Tokenize` cuts `s` at, in order: the separators
   that lie between neighbouring tokens, each a maximal run.
   */
  function Gaps(js: Js.Runtime, s: string): (gaps: seq<string>)
    ensures s != "" && js.isSpace(s[0]) ==> gaps != []
    decreases |s|
  {
    if s == "" then []
    else
      var rest := Gaps(js, s[1..]);
      if js.isSpace(s[0]) then
        if s[1..] != "" && js.isSpace(s[1]) then [[s[0]] + rest[0]] + rest[1..] else [[s[0]]] + rest
      else
        rest
  }

  /**
   Tokens and the whitespace between them as `split(/\s+/)` cuts them: the
   tokens hold no whitespace, every token strictly between two runs is
   non-empty, and every run is non-empty whitespace.
   */
  predicate TokenSplit(js: Js.Runtime, tokens: seq<string>, gaps: seq<string>)
  {
    && |tokens| == |gaps| + 1
    && (forall k :: 0 <= k < |tokens| ==> NoSpace(js, tokens[k]))
    && (forall k :: 0 < k < |tokens| - 1 ==> tokens[k] != "")
    && (forall k :: 0 <= k < |gaps| ==> gaps[k] != "" && Blank(js, gaps[k]))
  }

  /** Every text is its tokens woven with its whitespace runs. */
  lemma {:induction false} TokenizeWeave(js: Js.Runtime, s: string)
    ensures |Tokenize(js, s)| == |Gaps(js, s)| + 1
    ensures Weave(Tokenize(js, s), Gaps(js, s)) == s
    decreases |s|
  {
    if s != "" {
      var t := s[1..];
      TokenizeWeave(js, t);
      var rest, rg := Tokenize(js, t), Gaps(js, t);
      assert s == [s[0]] + t;
      if js.isSpace(s[0]) {
        if t != "" && js.isSpace(t[0]) {
          TokenizeShape(js, t);
          var g := [[s[0]] + rg[0]] + rg[1..];
          assert Gaps(js, s) == g && g[1..] == rg[1..];
          assert Weave(rest, rg) == rest[0] + rg[0] + Weave(rest[1..], rg[1..]);
        } else {
          var ts, g := [""] + rest, [[s[0]]] + rg;
          assert ts[1..] == rest && g[1..] == rg;
        }
      } else {
        WeaveFirst([s[0]], rest, rg);
      }
    }
  }

  /** The tokens and runs `Tokenize` and `Gaps` cut are well formed. */
  lemma {:induction false} TokenizeIsTokenSplit(js: Js.Runtime, s: string)
    ensures TokenSplit(js, Tokenize(js, s), Gaps(js, s))
  {
    TokenizeShape(js, s);
    TokenizeWeave(js, s);
    GapsBlank(js, s);
  }

  /** Every run `Gaps` returns is non-empty whitespace. */
  lemma {:induction false} GapsBlank(js: Js.Runtime, s: string)
    ensures forall k :: 0 <= k < |Gaps(js, s)| ==> Gaps(js, s)[k] != "" && Blank(js, Gaps(js, s)[k])
    decreases |s|
  {
    if s != "" {
      var t := s[1..];
      GapsBlank(js, t);
      var rg := Gaps(js, t);
      if js.isSpace(s[0]) {
        var g := Gaps(js, s);
        if t != "" && js.isSpace(t[0]) {
          assert g[0] == [s[0]] + rg[0];
          assert forall k :: 1 <= k < |g| ==> g[k] == rg[k];
        } else {
          assert forall k :: 1 <= k < |g| ==> g[k] == rg[k - 1];
        }
      }
    }
  }

  /**
   Tokenizing inverts weaving: well-formed tokens joined by any non-empty
   whitespace runs come back exactly. With `TokenizeWeave` this pins
   `Tokenize(s)` down as the one well-formed way to cut `s` into tokens.
   */
  lemma {:induction false} WeaveTokenize(js: Js.Runtime, tokens: seq<string>, gaps: seq<string>)
    requires TokenSplit(js, tokens, gaps)
    ensures Tokenize(js, Weave(tokens, gaps)) == tokens
    decreases |gaps|
  {
    if gaps == [] {
      TokenizeShape(js, tokens[0]);
    } else {
      var w := Weave(tokens[1..], gaps[1..]);
      assert TokenSplit(js, tokens[1..], gaps[1..]) by {
        assert forall k :: 0 <= k < |tokens| - 1 ==> tokens[1..][k] == tokens[k + 1];
        assert forall k :: 0 <= k < |gaps| - 1 ==> gaps[1..][k] == gaps[k + 1];
      }
      WeaveTokenize(js, tokens[1..], gaps[1..]);
      assert w == "" || !js.isSpace(w[0]) by {
        if |gaps| == 1 {
          assert w == tokens[1];
          if w != "" {
            assert NoSpace(js, tokens[1]);
          }
        } else {
          assert tokens[1] != "" && NoSpace(js, tokens[1]);
          assert w == tokens[1] + gaps[1] + Weave(tokens[2..], gaps[2..]) by {
            assert tokens[1..][1..] == tokens[2..] && gaps[1..][1..] == gaps[2..];
          }
          assert w[0] == tokens[1][0];
        }
      }
      TokenizeAfterIndent(js, gaps[0], w);
      TokenizeWordPrefix(js, tokens[0], gaps[0] + w);
      var x := Tokenize(js, gaps[0] + w);
      assert x[0] == "" && x[1..] == tokens[1..];
      assert tokens[0] + x[0] == tokens[0];
      assert Weave(tokens, gaps) == tokens[0] + (gaps[0] + w);
      assert [tokens[0]] + tokens[1..] == tokens;
    }
  }
}

=== FILE: wrappers.dfy ===
/** The optional value used where the source has "no rule" or "threw". */
module Wrappers {

  datatype Option<+T> = None | Some(value: T)
}
